=== FILE: README.md ===
# TalentScout hiring assistant: a Dafny model of the screening session

TalentScout is a Streamlit page that screens a job candidate in three stages:

1. It chats with the candidate until a language model replies with a JSON record of six fields.
2. It asks for the candidate's tech stacks.
3. For each stack, it generates up to three questions, collects the answers and has the model rate them 0 to 3 stars.

The candidate and the ratings are written to SQLite only while the feedback of the last stack in the list is on screen. The write happens on every run that shows that screen. So the ratings of a stack left with "Next Stack" are never stored, and the last stack's ratings are stored again on each rerun. `PersistCurrentStack` models this as written: it requires the current stack to be the last one, and nothing stops it from running again.

This project models the parts of that code that decide things:

- **`Session.ScreeningSession`** (session.dfy) is a class. Its fields are the values the page keeps in `st.session_state`. Each of its methods is one guarded block of app.py. Every language-model reply and every widget value is a parameter. Each method's `modifies` clause names exactly the fields its block assigns.
- **`Screening`** (screening.dfy) holds the pure helpers of app.py:
  - the `{...}` slice taken from the intake reply;
  - the email regular expression;
  - record validity;
  - the case-insensitive stack filter;
  - the star total;
  - the answer gate.
- **`Tools`** (tools.dfy) covers what tools.py does with a model reply:
  - the greedy `[...]` slice;
  - truncation to three questions;
  - key defaults and the fallback message;
  - the `qa_text` prompt builder, as a loop proved against a recursive definition.
- **`Persistence.Database`** (persistence.dfy) stands in for the two SQLite tables, as sequences of rows. `candidates` has a UNIQUE email and NOT NULL columns.
- **`Text`** and **`Json`** (text.dfy and json.dfy) supply what is needed of Python strings and decoded JSON values:
  - whitespace as `str.strip` and `\s` see it;
  - `str.lower`;
  - `str(int)`;
  - `dict.get`.

## Model

| member | source | states |
|---|---|---|
| Session.ScreeningSession.FeedbackShownIff | app.py:318-336 | The feedback screen (`FeedbackShown`, which gates Next Stack, Add Stack, Finish and the database writes) gets past its reads exactly when the current stack has an evaluation slot (else line 320 raises) and every dict item's stars coerce (else `int()` at lines 324 and 331 raises) |
| Session.ScreeningSession.constructor | app.py:81-94 | The first run's state: one greeting message, no record, no stacks, index 0, no questions, answers or evaluations, no candidate id, step 0; the session invariants hold |
| Session.ScreeningSession.BeginRun | app.py:95 | Every run starts with the feedback flag cleared; nothing else changes |
| Session.ScreeningSession.SubmitInfo | app.py:132-210 | The record is accepted (stored, intake closed, stack phase opened, summary shown) exactly when the input is non-empty, the reply holds a `{...}` slice and its decoded record is valid. A reply without a slice is appended as a follow-up and changes nothing else. A rejected slice adds only the user's line |
| Session.ScreeningSession.AcceptRecord | app.py:179-196 | Accepting a valid record stores it, sets both phase flags and appends the summary; the stored record stays valid |
| Session.ScreeningSession.SubmitStacks | app.py:213-247 | A non-empty stack result replaces the list as returned (not deduplicated), leaves the stack phase, resets the index to 0 and the evaluations to []. An empty result keeps all of these. The user's line and the validation message are appended either way |
| Session.ScreeningSession.GenerateQuestions | app.py:256-270 | At most three generation calls, stopping at the first that yields questions. Every earlier call yielded none. The questions are that call's result, with exactly one `""` answer per question; after three empty results the answers are untouched |
| Session.ScreeningSession.UseQuestions | app.py:262-265 | A successful call's questions are kept, each with one empty answer and no other answer key; the session invariants hold |
| Session.ScreeningSession.FillAnswers | app.py:276-283 | Each question the form can show has its answer slot set to its text area's value. Showing stops at the first question lacking `question` or `hint`, and later slots keep their old values |
| Session.ScreeningSession.SubmitAnswers | app.py:274-291 | Step 10 and the feedback flag are set exactly when every question was shown, the form was submitted, and every answer holds a non-whitespace character; otherwise the step is unchanged |
| Session.ScreeningSession.Evaluate | app.py:294-313 | A non-empty evaluation is appended when the list does not reach the current index, else it overwrites that slot; other slots are unchanged. An empty one leaves the list as it was. A failure to build the prompt appends [] |
| Session.ScreeningSession.NextStack | app.py:338-348 | Offered only while stacks remain; advances the index by exactly one, clears questions and answers, sets step 8 |
| Session.ScreeningSession.AddStacks | app.py:357-382 | The list is extended by exactly the stacks not yet listed (ignoring case), in order, with the existing prefix untouched. The index moves to the first of them and the stack restarts at step 0. With none to add, or a blank input, nothing changes |
| Session.ScreeningSession.ContinueWith | app.py:374-382 | The state set once there are new stacks: list extended, index at the first new stack, questions and answers cleared, step 0, flags cleared |
| Session.ScreeningSession.Finish | app.py:385-387 | Sets the final-message flag only |
| Session.ScreeningSession.PersistCurrentStack | app.py:390-413 | The candidate insert is attempted only while no id is held, and it succeeds exactly when the email is not yet stored. The id counter moves only when that insert succeeds. The ratings table grows by exactly the rows of this stack's dict items. Nothing prevents a later run from adding them again |
| Session.RatingRowFor | app.py:403-413 | A dict item yields at most one row: it yields one exactly when its question is not null and the insert reports no fault (`storeFault`, which also covers values SQLite cannot bind). A non-dict item yields none |
| Session.RatingRowsCount | app.py:402-413 | One pass adds at most one row per storable item, and exactly one when no insert reports a fault. A fault is any store failure or a value SQLite cannot bind. Every row carries the session's candidate id, the current stack and a non-null question |
| Session.StoreRating | app.py:403-413 | One loop pass adds that item's row, if any, and nothing else |
| Session.StoreRatings | app.py:402-413 | The loop appends exactly the rows of the items, in order |
| Session.RenderedPrefix | app.py:276-278 | The number of questions shown: all before it can be shown, the one at it cannot |
| Session.EmptyAnswers | app.py:264 | One `""` answer for each question index and no other key |
| Session.StacksToAdd | app.py:357-369 | Nothing for a blank input. Otherwise a stack is added exactly when the validated reply holds it and its lower-case form is not that of a listed stack; never more stacks than the reply holds |
| Session.RecordOf | app.py:390-399 | The record handed to the insert has no null column |
| Persistence.Database.constructor | tools.py:11-37 | Both tables start empty, and the table constraints hold |
| Persistence.Database.InsertCandidate | tools.py:39-56 | Returns None, changing nothing, exactly when the email is already stored or a column would be null. Otherwise it appends one row under a fresh id above every earlier one, and the id counter moves to it. Unique ids and emails are preserved |
| Persistence.Database.InsertQuestionRating | tools.py:58-72 | Returns true and appends exactly one row, or returns false and appends none; it never raises. It returns false exactly when the question is null or the insert faults (`storeFault`: a store failure or a value SQLite cannot bind) |
| Tools.ArraySpan | tools.py:146 | A found span opens with `[` and closes with a later `]` |
| Tools.ArraySpanLeftmostLongest | tools.py:146 | The span is absent exactly when no `[` has a `]` after it; otherwise it starts at the leftmost such `[` and ends at the last `]` |
| Tools.ArraySlice | tools.py:146-147 | Absent exactly when no `[` has a `]` after it. Otherwise it is bracketed at both ends and is the piece of the reply with no `[` before it and no `]` after it: from the first `[` to the last `]` |
| Tools.DecodedArray | tools.py:144-151 | A non-empty result is the decoded value of a reply that has a `[...]` slice; whenever the reply has a slice that decodes, the result is that value. Every failure therefore yields [], never an exception |
| Tools.GenerateTechQuestions | tools.py:144-151 | A prefix of the decoded array of length min(3, n); [] on any failure |
| Tools.QaBlock | tools.py:170 | A block exists exactly when the question is a dict holding `question` |
| Tools.QaFromSnoc | tools.py:168-170 | Appending a question appends exactly its block, numbered after the others |
| Tools.QaFromDefinedIff | tools.py:168-170 | The text can be built exactly when every question is a dict holding `question` |
| Tools.QaTextPrefix | tools.py:168-170 | The text for the first m questions is a prefix of the whole text |
| Tools.QaTextBlockAt | tools.py:168-170 | The block of question k, numbered k+1 and carrying its answer or `""`, follows the blocks of the questions before it |
| Tools.QaTextStep | tools.py:169-170 | One more loop pass joins the next question's block to the text so far |
| Tools.BuildQaText | tools.py:168-170 | The accumulating loop yields the reference text, and it finishes exactly when every question has a `question` key |
| Tools.EvaluateAnswers | tools.py:168-195 | Raises exactly when a question lacks `question`, since the text is built outside the `try`. Otherwise it returns the decoded array, untruncated, or [] on any failure |
| Tools.ValidateAndExtractStacks | tools.py:110-118 | Stacks are never made up: any returned are exactly the parser's list. The message is empty only when the parsed reply carried none or an empty one, so a failure always shows the fixed fallback message. A failure yields no stacks. A parsed reply without `stacks` gives `[]`, and one without `message` gives `""` (the `.get` defaults) |
| Screening.InfoSpan | app.py:171 | A found span opens with `{` and closes with a later `}` |
| Screening.InfoSpanLeftmostShortest | app.py:171-172 | The span is absent exactly when no `{` has a `}` after it; otherwise it is the leftmost `{` and the first `}` after it |
| Screening.InfoSlice | app.py:171-173 | The text handed to the decoder is the reply's own text, from its first `{` to the first `}` after it: absent exactly when there is no span, braces at both ends, no `}` inside and no `{` before it in the reply |
| Screening.CheckEmailBodySound | app.py:177 | Every address the direct check accepts splits into local part, `@`, domain, `.`, alphanumeric suffix |
| Screening.CheckEmailBodyComplete | app.py:177 | Every such split passes the direct check |
| Screening.CheckEmailBodyIff | app.py:177 | The direct check and the pattern agree on every text |
| Screening.IsEmailIff | app.py:177 | The check applied is the regular expression's match, including `$` before a final newline |
| Screening.SplitHasOneAt | app.py:177 | A split address has no `@` except the one it splits at |
| Screening.EmailHasOneAt | app.py:177 | An accepted address has exactly one `@`, with something on each side |
| Screening.FieldsPresentKeys | app.py:174-176 | A record with all six fields holds each key with a non-null value |
| Screening.InfoValidIff | app.py:174-177 | A record is accepted exactly when all six fields are neither missing, None nor `""`, and the email is a string the pattern matches |
| Screening.LowerAll | app.py:367 | A text is in the lowered list exactly when it is the lower-case form of some listed stack, which is what the `in existing` test asks |
| Screening.FreshStacks | app.py:369 | Never adds more stacks than came in |
| Screening.FreshStacksIff | app.py:366-369 | A stack is kept exactly when it came in and its lower-case form is not among the listed stacks' |
| Screening.FreshStacksAppend | app.py:369 | The filter preserves order: it distributes over concatenation |
| Screening.FreshStacksAllNew | app.py:369 | When no incoming stack is listed, all are kept, in order |
| Screening.FreshStacksCaseInsensitive | app.py:366-369 | Two stacks differing only in case are both kept or both dropped |
| Screening.FreshStacksExample | app.py:366-369 | "Python" is not added when "python" is listed |
| Screening.TotalStarsAppend | app.py:324 | The total is defined on a concatenation exactly when it is defined on both parts, and then it is their sum |
| Screening.TotalStarsDefinedIff | app.py:324 | The total is defined exactly when every dict item's stars coerce |
| Screening.TotalStarsBounds | app.py:324-325 | With every dict item rated 0 to 3, the total lies between 0 and 3 per item; nothing clamps it otherwise |
| Screening.AllAnsweredIff | app.py:286 | The gate passes exactly when every answer holds a non-whitespace character |
| Text.StripNonEmptyIff | app.py:286 | A stripped string is non-empty exactly when the string holds a non-whitespace character |
| Text.Lower | app.py:367 | Same length with no capital letter left: each capital becomes its small letter, every other character is kept |
| Text.LowerIdempotent | app.py:367-369 | Lower-casing twice equals lower-casing once, so the comparison is stable |
| Text.IntToString | tools.py:170 | Non-empty, with a leading minus exactly for negatives |
| Text.NatToStringValue | tools.py:170 | The digits of a non-negative number's text spell that number |
| Text.IntToStringValue | tools.py:170 | The text of a number is its decimal notation: its digits spell it, after a minus sign for a negative one. This is how each block is numbered |

These definitions transcribe source expressions directly. Other members build on them, and the rows above state their properties, so they have no row of their own:
- `Tools.AnswerAt` is `answers.get(idx, '')` (tools.py:170).
- `Tools.Render` is the `f"{...}"` formatting of a decoded value (tools.py:170).
- `Tools.QaText` is the `qa_text` that tools.py:168-170 builds, or None where building it raises. `BuildQaText` and the `QaText*` lemmas state its properties.
- `Screening.StarsOf` is `int(item.get('stars', 0))` (app.py:324, 331, 405). It is None where `int()` of the value is not modelled.
- `Screening.TotalStars` is the star sum of app.py:324. `TotalStarsAppend`, `TotalStarsDefinedIff` and `TotalStarsBounds` state its properties.
- `Screening.InfoValid` is the acceptance test of app.py:174-177. `InfoValidIff` states it against the regular expression.
- `Session.ScreeningSession.FeedbackShown` is the condition under which app.py:318-336 shows the feedback screen without raising. `FeedbackShownIff` states it.
- `Screening.CheckEmailBody` and `Screening.IsEmail` are the email test of app.py:177. `CheckEmailBodyIff` and `IsEmailIff` state them against the regular expression.
- `Screening.AllAnswered` is the answer gate of app.py:286. `AllAnsweredIff` states it.
- `Screening.InfoAccepted` is the acceptance path of app.py:171-179: a `{...}` span, a decoded record and `InfoValid`. `InfoSpanLeftmostShortest`, `InfoValidIff` and `SubmitInfo` state its parts and its effect.
- `Session.RatingRows` is the rows one pass of the loop at app.py:402-413 adds. `RatingRowsCount` and `StoreRatings` state its properties.
- `Session.RatingRowsSnoc` unfolds `RatingRows` one item further. It is the loop step `StoreRatings` uses.
- `Text.Strip` is `str.strip()` (app.py:286 and elsewhere). `StripNonEmptyIff` states when its result is non-empty.

## Left out

- The Streamlit page itself is left out: CSS, chat-bubble HTML, `html.escape`, spinners, warnings, `st.info` about duplicate stacks and the thank-you page. These are display only.
- Language-model calls are not modelled, and nor are `ChatOpenAI`, `LLMChain`, `PromptTemplate` and `StructuredOutputParser`. Each reply is a parameter. `ArrayReply.CallFailed` and `StackReply.StackCallFailed` stand for any exception inside a helper's `try`.
- The model's intake prompt and chat history are left out. The prompt text built for evaluation matters only in whether building it raises.
- Constructing the client objects outside the `try` is assumed not to raise.
- Session.ScreeningSession.SubmitInfo: a failing intake call is not modelled. The call and `response.content` (app.py:165-168) sit outside the `try` that opens at app.py:170, so an exception there ends the run with only the user's line appended (app.py:136). That state equals the one `SubmitInfo` gives for a reply whose `{...}` slice does not decode, for instance `SubmitInfo(prompt, "{}", None)`.
- `json.loads` and `parser.parse` are not modelled. Their result is an input: `decoded` in `SubmitInfo` and in `ArrayReply`, and the `StackParsed` fields.
- Tools.StackReply: the parsed reply's `stacks` is taken to be a list of strings and its `message` a string. The output parser does not check types. A string in `stacks` would be stored as the stack list and screened one character at a time, and "Add This Stack" would then fail on `.extend`; none of this is modelled.
- Screening.StarsOf: `int()` of a string, float or bool star value is not modelled. Such a value gives None, and the feedback screen then counts as not shown. This is likely a common case, not a rare one: tools.py:163 declares `stars` with ResponseSchema's default type, which is "string", so the language model may well return `"2"`. In the source `int("2")` succeeds and the screen is shown; the model does not capture that run. Stars are never clamped.
- Text.Lower: lower-cases ASCII letters only. Python's `str.lower` also folds other scripts, so `Screening.FreshStacks` compares case-insensitively only over ASCII.
- Tools.QaBlock: a decoded value is rendered by its own text. Python's `str()` formatting of floats, lists and dicts is not modelled.
- Persistence.Database.InsertCandidate: only the UNIQUE email and NOT NULL columns are modelled. SQLite type affinity, the `INTEGER` column and errors other than IntegrityError are not. The unused `tech_stacks` key that app.py passes is not modelled either.
- Persistence.Database.InsertQuestionRating: any failure of the insert is the `storeFault` parameter. That includes store failures such as a missing table. It also includes data-dependent failures that tools.py:68 catches: a list or dict `question` or `feedback` (a `Value.Other`) that sqlite3 cannot bind, and a `stars` value outside 64 bits (OverflowError). The model does not derive these from the values themselves. The foreign key is not enforced, as in SQLite by default.
- Connections, commits and `init_db` are left out. app.py imports `init_db` but never calls it; the database constructor stands for freshly created tables.
- Driving reruns is not modelled. Each method is one block of one run, and the caller chooses the order. In particular, `st.rerun()` ending a run early is not modelled, nor is the page's top-to-bottom sequencing within a run.
- reset.py, db.py and testing.py are not part of this model: they are standalone scripts for dumping, deleting and creating tables and for pinging the model.
- Loading the API key from the environment is not part of this model.

=== FILE: json.dfy ===
/**
 * The decoded JSON that the language model's replies carry, kept only as
 * precise as the screening code looks at it.  Decoding itself (`json.loads`,
 * the structured output parser) is not modelled: its result is an input.
 */
module Json {

  /** A JSON scalar or nested value as a Python object. */
  datatype Value =
    | Null                  // None
    | Str(s: string)        // str
    | Num(n: int)           // int
    | Other(text: string)   // bool, float, list or dict, with the text str() gives it

  /** One element of a decoded JSON array: a dict, or anything else. */
  datatype Item =
    | Obj(fields: map<string, Value>)
    | NonObj

  /** Python's `d.get(key, default)`. */
  function Get(fields: map<string, Value>, key: string, default: Value): (v: Value)
    ensures key in fields ==> v == fields[key]
    ensures key !in fields ==> v == default
  {
    if key in fields then fields[key] else default
  }
}

=== FILE: persistence.dfy ===
/**
 * The two tables of tools.py as an in-memory store: `candidates`, whose email
 * column is UNIQUE and whose six data columns are NOT NULL, and
 * `question_ratings`.  Connections, commits and the table definitions are not
 * modelled; each insert is one atomic step.
 */
module Persistence {
  import opened Wrappers
  import opened Json

  /** The values `insert_candidate` reads from its `data` dict. */
  datatype CandidateRecord = CandidateRecord(
    fullName: Value, email: Value, phone: Value, experience: Value, position: Value, location: Value)

  /** One row of `candidates`. */
  datatype CandidateRow = CandidateRow(id: int, record: CandidateRecord)

  /** One row of `question_ratings` (its own autoincrement id is not kept). */
  datatype RatingRow = RatingRow(
    candidateId: Option<int>, techStack: string, question: Value, stars: int, feedback: Value)

  /** A NOT NULL column of `candidates` would receive NULL. */
  predicate HasNull(r: CandidateRecord) {
    r.fullName == Null || r.email == Null || r.phone == Null
    || r.experience == Null || r.position == Null || r.location == Null
  }

  class Database {
    var candidates: seq<CandidateRow>
    var ratings: seq<RatingRow>
    /** The largest candidate id handed out so far (SQLite's AUTOINCREMENT counter). */
    var lastCandidateId: nat

    /** The table constraints: ids positive, distinct and not above the counter; emails unique; no NULLs. */
    ghost predicate Valid()
      reads this
    {
      && (forall k :: 0 <= k < |candidates| ==> 1 <= candidates[k].id <= lastCandidateId)
      && (forall k :: 0 <= k < |candidates| ==> !HasNull(candidates[k].record))
      && (forall i, j :: 0 <= i < j < |candidates| ==>
            candidates[i].id != candidates[j].id && candidates[i].record.email != candidates[j].record.email)
    }

    /** Some stored candidate already has this email. */
    predicate EmailTaken(email: Value)
      reads this
    {
      exists k :: 0 <= k < |candidates| && candidates[k].record.email == email
    }

    /** Some stored candidate has this id. */
    predicate IdTaken(id: int)
      reads this
    {
      exists k :: 0 <= k < |candidates| && candidates[k].id == id
    }

    /** Empty tables, as after `init_db` on a new file. */
    constructor ()
      ensures Valid()
      ensures candidates == [] && ratings == [] && lastCandidateId == 0
    {
      candidates := [];
      ratings := [];
      lastCandidateId := 0;
    }

    /**
     * `insert_candidate`: a new row and its fresh id, or None (the
     * IntegrityError branch) when the email is already stored or a column would
     * be NULL; then nothing changes.
     */
    method InsertCandidate(rec: CandidateRecord) returns (id: Option<int>)
      requires Valid()
      modifies this`candidates, this`lastCandidateId
      ensures Valid()
      ensures id.None? <==> HasNull(rec) || old(EmailTaken(rec.email))
      ensures id.None? ==> candidates == old(candidates) && lastCandidateId == old(lastCandidateId)
      ensures id.Some? ==> !old(IdTaken(id.value)) && id.value > old(lastCandidateId)
      ensures id.Some? ==> lastCandidateId == id.value
      ensures id.Some? ==> candidates == old(candidates) + [CandidateRow(id.value, rec)]
    {
      if HasNull(rec) || EmailTaken(rec.email) {
        return None;
      }
      lastCandidateId := lastCandidateId + 1;
      candidates := candidates + [CandidateRow(lastCandidateId, rec)];
      id := Some(lastCandidateId);
    }

    /**
     * `insert_question_rating`: one more row and true, or false and no row when
     * the insert fails (a NULL question, or a fault of the store such as a
     * missing table); it never raises.  The candidate id is not checked: SQLite
     * leaves foreign keys unenforced unless asked.
     */
    method InsertQuestionRating(candidateId: Option<int>, techStack: string, question: Value,
                                stars: int, feedback: Value, storeFault: bool) returns (ok: bool)
      modifies this`ratings
      ensures ok <==> !storeFault && question != Null
      ensures ok ==> ratings == old(ratings) + [RatingRow(candidateId, techStack, question, stars, feedback)]
      ensures !ok ==> ratings == old(ratings)
    {
      if storeFault || question == Null {
        return false;
      }
      ratings := ratings + [RatingRow(candidateId, techStack, question, stars, feedback)];
      ok := true;
    }
  }
}

=== FILE: screening.dfy ===
/**
 * The pure decisions app.py takes between model replies: where the candidate
 * object sits in the intake reply, whether a decoded candidate record is
 * accepted (six fields and the email pattern), which added stacks are new
 * (case-insensitively), the star total of an evaluation, and whether every
 * answer is filled in.
 */
module Screening {
  import opened Wrappers
  import opened Json
  import opened Text
  import Tools

  // ---------------------------------------------------------------------------
  // The candidate object in the intake reply: re.search(r'(\{.*?\})', reply, re.DOTALL)

  /** `s[i]` opens and `s[j]` closes a candidate match of `\{.*?\}`. */
  ghost predicate ObjectMatch(s: string, i: int, j: int) {
    0 <= i < j < |s| && s[i] == '{' && s[j] == '}'
  }

  /**
   * Where the non-greedy search matches: the leftmost opening brace that has a
   * closing one after it, and from there the shortest match, i.e. up to the
   * first closing brace after it.
   */
  function InfoSpan(s: string): (r: Option<(nat, nat)>)
    ensures r.Some? ==> ObjectMatch(s, r.value.0, r.value.1)
  {
    match IndexOfFrom(s, '{', 0)
    case None => None
    case Some(i) =>
      match IndexOfFrom(s, '}', i + 1)
      case None => None
      case Some(j) => assert ObjectMatch(s, i, j); Some((i, j))
  }

  /** The span is None exactly when nothing matches; otherwise it is the leftmost, then shortest, match. */
  lemma InfoSpanLeftmostShortest(s: string)
    ensures InfoSpan(s).None? <==> forall i, j :: !ObjectMatch(s, i, j)
    ensures InfoSpan(s).Some? ==> forall i, j :: ObjectMatch(s, i, j) ==>
              InfoSpan(s).value.0 < i || (InfoSpan(s).value.0 == i && InfoSpan(s).value.1 <= j)
  {
    IndexOfFromFirst(s, '{', 0);
    match IndexOfFrom(s, '{', 0)
    case None =>
    case Some(i) =>
      IndexOfFromFirst(s, '}', i + 1);
  }

  /** `t` is the piece of `s` that starts at position `i`, with no `{` before it. */
  ghost predicate FromFirstOpen(s: string, i: int, t: string) {
    && 0 <= i && i + |t| <= |s| && s[i..i + |t|] == t
    && (forall k :: 0 <= k < i ==> s[k] != '{')
  }

  /**
   * The matched text, which the code hands to `json.loads`: the piece of the
   * reply from its first `{` up to the first `}` after it, so one object with
   * no `}` inside.
   */
  function InfoSlice(s: string): (r: Option<string>)
    ensures r.None? <==> InfoSpan(s).None?
    ensures r.Some? ==> 2 <= |r.value| && r.value[0] == '{' && r.value[|r.value| - 1] == '}'
    ensures r.Some? ==> forall k :: 0 < k < |r.value| - 1 ==> r.value[k] != '}'
    ensures r.Some? ==> exists i :: FromFirstOpen(s, i, r.value)
  {
    match InfoSpan(s)
    case None => None
    case Some((i, j)) =>
      InfoSpanLeftmostShortest(s);
      IndexOfFromFirst(s, '{', 0);
      var r := s[i..j + 1];
      assert FromFirstOpen(s, i, r);
      forall k | 0 < k < |r| - 1
        ensures r[k] != '}'
      {
        assert r[k] == s[i + k] && !ObjectMatch(s, i, i + k);
      }
      Some(r)
  }

  // ---------------------------------------------------------------------------
  // The email pattern: re.match(r"[^@\s]+@[^@\s]+\.[a-zA-Z0-9]+$", email)

  /** Every character is in `[^@\s]`. */
  predicate NoAtOrSpace(s: string) {
    forall k :: 0 <= k < |s| ==> s[k] != '@' && !IsSpace(s[k])
  }

  /** Every character is in `[a-zA-Z0-9]`. */
  predicate AllAsciiAlnum(s: string) {
    forall k :: 0 <= k < |s| ==> IsAsciiAlnum(s[k])
  }

  /** `e` splits at the `@` at `at` and the `.` at `dot` into the three parts of the pattern. */
  ghost predicate EmailSplit(e: string, at: int, dot: int) {
    && 0 < at && at + 1 < dot && dot + 1 < |e|
    && e[at] == '@' && e[dot] == '.'
    && NoAtOrSpace(e[..at]) && NoAtOrSpace(e[at + 1..dot]) && AllAsciiAlnum(e[dot + 1..])
  }

  /** The whole of `e` matches `[^@\s]+@[^@\s]+\.[a-zA-Z0-9]+`. */
  ghost predicate EmailBody(e: string) {
    exists at, dot :: EmailSplit(e, at, dot)
  }

  /**
   * What `re.match` with that pattern accepts: `$` matches at the end of the
   * text and also just before a newline that ends it.
   */
  ghost predicate EmailPattern(e: string) {
    EmailBody(e) || (|e| > 0 && e[|e| - 1] == '\n' && EmailBody(e[..|e| - 1]))
  }

  /** A direct check of `EmailBody`: split at the first `@`, then at the last `.` after it. */
  function CheckEmailBody(e: string): bool {
    match IndexOfFrom(e, '@', 0)
    case None => false
    case Some(at) =>
      var domain := e[at + 1..];
      && at > 0 && NoAtOrSpace(e[..at]) && NoAtOrSpace(domain)
      && match LastIndexOf(domain, '.')
         case None => false
         case Some(d) => 0 < d && d + 1 < |domain| && AllAsciiAlnum(domain[d + 1..])
  }

  /** The email check app.py applies. */
  predicate IsEmail(e: string) {
    CheckEmailBody(e) || (|e| > 0 && e[|e| - 1] == '\n' && CheckEmailBody(e[..|e| - 1]))
  }

  /** What the direct check accepts splits as the pattern requires. */
  lemma CheckEmailBodySound(e: string)
    requires CheckEmailBody(e)
    ensures EmailBody(e)
  {
    var at := IndexOfFrom(e, '@', 0).value;
    var domain := e[at + 1..];
    var d := LastIndexOf(domain, '.').value;
    var dot := at + 1 + d;
    assert e[at + 1..dot] == domain[..d];
    assert e[dot + 1..] == domain[d + 1..];
    assert EmailSplit(e, at, dot);
  }

  /** Every split the pattern allows passes the direct check. */
  lemma CheckEmailBodyComplete(e: string, at: int, dot: int)
    requires EmailSplit(e, at, dot)
    ensures CheckEmailBody(e)
  {
    SplitHasOneAt(e, at, dot);
    IndexOfFromFirst(e, '@', 0);
    assert IndexOfFrom(e, '@', 0) == Some(at);
    var domain := e[at + 1..];
    assert NoAtOrSpace(domain) by {
      forall k | 0 <= k < |domain|
        ensures domain[k] != '@' && !IsSpace(domain[k])
      {
        var i := at + 1 + k;
        assert domain[k] == e[i];
        if i < dot {
          assert e[i] == e[at + 1..dot][i - at - 1];
        } else if i > dot {
          assert e[i] == e[dot + 1..][i - dot - 1];
        }
      }
    }
    var d := dot - at - 1;
    assert domain[d] == '.';
    forall k | d < k < |domain|
      ensures domain[k] != '.'
    {
      assert domain[k] == e[dot + 1..][k - d - 1];
    }
    LastIndexOfLast(domain, '.');
    assert LastIndexOf(domain, '.') == Some(d);
    assert domain[d + 1..] == e[dot + 1..];
  }

  /** The direct check accepts exactly the texts the pattern matches. */
  lemma CheckEmailBodyIff(e: string)
    ensures CheckEmailBody(e) <==> EmailBody(e)
  {
    if CheckEmailBody(e) {
      CheckEmailBodySound(e);
    }
    if EmailBody(e) {
      var at, dot :| EmailSplit(e, at, dot);
      CheckEmailBodyComplete(e, at, dot);
    }
  }

  /** `IsEmail` is the regex match, trailing-newline allowance included. */
  lemma IsEmailIff(e: string)
    ensures IsEmail(e) <==> EmailPattern(e)
  {
    CheckEmailBodyIff(e);
    if |e| > 0 {
      CheckEmailBodyIff(e[..|e| - 1]);
    }
  }

  /** In a split text, the `@` at `at` is the only one. */
  lemma SplitHasOneAt(e: string, at: int, dot: int)
    requires EmailSplit(e, at, dot)
    ensures forall k :: 0 <= k < |e| && k != at ==> e[k] != '@'
  {
    forall k | 0 <= k < |e| && k != at
      ensures e[k] != '@'
    {
      if k < at {
        assert e[k] == e[..at][k];
      } else if k < dot {
        assert e[k] == e[at + 1..dot][k - at - 1];
      } else if k > dot {
        assert e[k] == e[dot + 1..][k - dot - 1];
      }
    }
  }

  /** An accepted address has exactly one `@`, with a non-empty part on each side. */
  lemma EmailHasOneAt(e: string)
    requires IsEmail(e)
    ensures exists at :: 0 < at < |e| - 1 && e[at] == '@'
    ensures forall i, j :: 0 <= i < |e| && 0 <= j < |e| && e[i] == '@' && e[j] == '@' ==> i == j
  {
    var body := if CheckEmailBody(e) then e else e[..|e| - 1];
    CheckEmailBodySound(body);
    var at, dot :| EmailSplit(body, at, dot);
    SplitHasOneAt(body, at, dot);
    assert e[at] == body[at];
    forall k | 0 <= k < |e| && k != at
      ensures e[k] != '@'
    {
      if k < |body| {
        assert e[k] == body[k];
      }
    }
  }

  // ---------------------------------------------------------------------------
  // The candidate record

  /** The keys of `INFO_FIELDS`, in order. */
  const InfoFields: seq<string> := ["full_name", "email", "phone", "experience", "position", "location"]

  /** `data.get(field) not in [None, ""]`. */
  predicate Present(data: map<string, Value>, field: string) {
    field in data && data[field] != Null && data[field] != Str("")
  }

  /** Every field of `INFO_FIELDS` is present and neither `None` nor `""`. */
  predicate FieldsPresent(data: map<string, Value>) {
    forall k :: 0 <= k < |InfoFields| ==> Present(data, InfoFields[k])
  }

  /** The six fields, one by one: each key is held and its value is not `None`. */
  lemma FieldsPresentKeys(data: map<string, Value>)
    requires FieldsPresent(data)
    ensures "full_name" in data && data["full_name"] != Null
    ensures "email" in data && data["email"] != Null
    ensures "phone" in data && data["phone"] != Null
    ensures "experience" in data && data["experience"] != Null
    ensures "position" in data && data["position"] != Null
    ensures "location" in data && data["location"] != Null
  {
    assert Present(data, InfoFields[0]) && Present(data, InfoFields[1]) && Present(data, InfoFields[2]);
    assert Present(data, InfoFields[3]) && Present(data, InfoFields[4]) && Present(data, InfoFields[5]);
  }

  /**
   * The acceptance test of app.py: all six fields present and the email a
   * string the pattern matches.  (A non-string email makes `re.match` raise; the
   * surrounding `except` swallows it, so it is rejected like a bad address.)
   */
  predicate InfoValid(data: map<string, Value>) {
    FieldsPresent(data) && "email" in data && data["email"].Str? && IsEmail(data["email"].s)
  }

  /** Acceptance stated against the regex rather than the check. */
  lemma InfoValidIff(data: map<string, Value>)
    ensures InfoValid(data) <==>
      && (forall k :: 0 <= k < |InfoFields| ==> Present(data, InfoFields[k]))
      && "email" in data && data["email"].Str? && EmailPattern(data["email"].s)
  {
    assert InfoFields[1] == "email";
    if "email" in data && data["email"].Str? {
      IsEmailIff(data["email"].s);
    }
  }

  /** The whole intake decision: the reply carries a `{...}` slice and its decoded record is valid. */
  predicate InfoAccepted(reply: string, decoded: Option<map<string, Value>>) {
    InfoSpan(reply).Some? && decoded.Some? && InfoValid(decoded.value)
  }

  // ---------------------------------------------------------------------------
  // Adding stacks

  /**
   * `[s.lower() for s in stacks]`: a text is in it exactly when it is the
   * lower-case form of a listed stack, which is what the `in existing` test asks.
   */
  function LowerAll(stacks: seq<string>): (r: seq<string>)
    ensures |r| == |stacks|
    ensures forall t :: t in r <==> exists s :: s in stacks && Lower(s) == t
  {
    var r := seq(|stacks|, k requires 0 <= k < |stacks| => Lower(stacks[k]));
    forall t | t in r
      ensures exists s :: s in stacks && Lower(s) == t
    {
      var k :| 0 <= k < |r| && r[k] == t;
      assert stacks[k] in stacks;
    }
    forall s | s in stacks
      ensures Lower(s) in r
    {
      var k :| 0 <= k < |stacks| && stacks[k] == s;
      assert r[k] == Lower(s);
    }
    r
  }

  /** `[s for s in new_stacks if s.lower() not in existing]`, with `existing` the lower-cased list. */
  function FreshStacks(existing: seq<string>, incoming: seq<string>): (added: seq<string>)
    ensures |added| <= |incoming|
    decreases |incoming|
  {
    if incoming == [] then []
    else
      var rest := FreshStacks(existing, incoming[1..]);
      if Lower(incoming[0]) in LowerAll(existing) then rest else [incoming[0]] + rest
  }

  /** A stack is added exactly when it is incoming and not already listed, ignoring case. */
  lemma {:induction false} FreshStacksIff(existing: seq<string>, incoming: seq<string>)
    ensures forall s :: s in FreshStacks(existing, incoming) <==> s in incoming && Lower(s) !in LowerAll(existing)
    decreases |incoming|
  {
    if incoming != [] {
      FreshStacksIff(existing, incoming[1..]);
      assert incoming == [incoming[0]] + incoming[1..];
    }
  }

  /** The filter keeps order: it distributes over concatenation. */
  lemma {:induction false} FreshStacksAppend(existing: seq<string>, xs: seq<string>, ys: seq<string>)
    ensures FreshStacks(existing, xs + ys) == FreshStacks(existing, xs) + FreshStacks(existing, ys)
    decreases |xs|
  {
    if xs == [] {
      assert [] + ys == ys;
    } else {
      assert (xs + ys)[0] == xs[0];
      assert (xs + ys)[1..] == xs[1..] + ys;
      FreshStacksAppend(existing, xs[1..], ys);
    }
  }

  /** When no incoming stack is already listed (ignoring case), all of them are added, in order. */
  lemma {:induction false} FreshStacksAllNew(existing: seq<string>, incoming: seq<string>)
    requires forall k :: 0 <= k < |incoming| ==> Lower(incoming[k]) !in LowerAll(existing)
    ensures FreshStacks(existing, incoming) == incoming
    decreases |incoming|
  {
    if incoming != [] {
      FreshStacksAllNew(existing, incoming[1..]);
    }
  }

  /** Stacks that differ only in ASCII case are both kept or both dropped. */
  lemma FreshStacksCaseInsensitive(existing: seq<string>, incoming: seq<string>, a: string, b: string)
    requires a in incoming && b in incoming && Lower(a) == Lower(b)
    ensures a in FreshStacks(existing, incoming) <==> b in FreshStacks(existing, incoming)
  {
    FreshStacksIff(existing, incoming);
  }

  /** Adding "Python" when "python" is already listed adds nothing. */
  lemma FreshStacksExample()
    ensures FreshStacks(["python"], ["Python"]) == []
  {
    assert Lower("Python") == "python" by {
      forall k | 0 <= k < 6 ensures Lower("Python")[k] == "python"[k] { }
    }
    assert LowerAll(["python"]) == ["python"] by {
      assert Lower("python") == "python" by {
        forall k | 0 <= k < 6 ensures Lower("python")[k] == "python"[k] { }
      }
    }
  }

  // ---------------------------------------------------------------------------
  // Star totals

  /**
   * `int(item.get('stars', 0))` for a dict item: 0 when absent, the number for
   * a JSON integer; None where the coercion is not modelled.
   */
  function StarsOf(fields: map<string, Value>): (r: Option<int>)
    ensures r.None? <==> "stars" in fields && !fields["stars"].Num?
    ensures "stars" !in fields ==> r == Some(0)
    ensures "stars" in fields && fields["stars"].Num? ==> r == Some(fields["stars"].n)
  {
    match Get(fields, "stars", Num(0))
    case Num(n) => Some(n)
    case _ => None
  }

  /** `sum(int(item.get('stars', 0)) for item in evaluations if isinstance(item, dict))`; None if a coercion fails. */
  function TotalStars(items: seq<Item>): Option<int>
    decreases |items|
  {
    if items == [] then Some(0)
    else
      var here := match items[0] case Obj(f) => StarsOf(f) case NonObj => Some(0);
      if here.Some? && TotalStars(items[1..]).Some? then Some(here.value + TotalStars(items[1..]).value) else None
  }

  /** Every dict item has a star value that `int()` turns into a number, as the model understands it. */
  predicate StarsCoercible(items: seq<Item>) {
    forall k :: 0 <= k < |items| && items[k].Obj? ==> StarsOf(items[k].fields).Some?
  }

  /** The total is defined exactly when every dict item's stars can be read, and it adds up over a split. */
  lemma {:induction false} TotalStarsAppend(xs: seq<Item>, ys: seq<Item>)
    ensures TotalStars(xs + ys).Some? <==> TotalStars(xs).Some? && TotalStars(ys).Some?
    ensures TotalStars(xs + ys).Some? ==> TotalStars(xs + ys).value == TotalStars(xs).value + TotalStars(ys).value
    decreases |xs|
  {
    if xs == [] {
      assert [] + ys == ys;
    } else {
      assert (xs + ys)[0] == xs[0];
      assert (xs + ys)[1..] == xs[1..] + ys;
      TotalStarsAppend(xs[1..], ys);
    }
  }

  /** The total is defined exactly when every dict item's stars can be read. */
  lemma {:induction false} TotalStarsDefinedIff(items: seq<Item>)
    ensures TotalStars(items).Some? <==> StarsCoercible(items)
    decreases |items|
  {
    if items != [] {
      TotalStarsDefinedIff(items[1..]);
      assert forall k :: 1 <= k < |items| ==> items[k] == items[1..][k - 1];
    }
  }

  /**
   * With every dict item rated 0 to 3, the total lies between 0 and three
   * times the number of items (0 to 9 for three questions).  Stars are not
   * clamped, so nothing bounds the total otherwise.
   */
  lemma {:induction false} TotalStarsBounds(items: seq<Item>)
    requires forall k :: 0 <= k < |items| && items[k].Obj? ==>
               StarsOf(items[k].fields).Some? && 0 <= StarsOf(items[k].fields).value <= 3
    ensures TotalStars(items).Some?
    ensures 0 <= TotalStars(items).value <= 3 * |items|
    decreases |items|
  {
    if items != [] {
      assert forall k :: 1 <= k < |items| ==> items[k] == items[1..][k - 1];
      TotalStarsBounds(items[1..]);
    }
  }

  // ---------------------------------------------------------------------------
  // The answer gate

  /** `all(answers[i].strip() for i in range(n))`, for answers that hold every index below `n`. */
  predicate AllAnswered(answers: map<int, string>, n: nat)
    requires forall i :: 0 <= i < n ==> i in answers
  {
    forall i :: 0 <= i < n ==> Strip(answers[i]) != ""
  }

  /** The gate passes exactly when every answer holds a non-whitespace character. */
  lemma AllAnsweredIff(answers: map<int, string>, n: nat)
    requires forall i :: 0 <= i < n ==> i in answers
    ensures AllAnswered(answers, n) <==> forall i :: 0 <= i < n ==> HasNonSpace(answers[i])
  {
    forall i | 0 <= i < n
      ensures Strip(answers[i]) != "" <==> HasNonSpace(answers[i])
    {
      StripNonEmptyIff(answers[i]);
    }
  }

  // ---------------------------------------------------------------------------
  // Question generation with retries

  /** `max_attempts` in app.py. */
  const MaxAttempts: nat := 3

  /** The attempts before `n` all produced no questions. */
  ghost predicate AllEmptyBefore(attempts: seq<Tools.ArrayReply>, n: nat)
    requires n <= |attempts|
  {
    forall k :: 0 <= k < n ==> Tools.GenerateTechQuestions(attempts[k]) == []
  }
}

=== FILE: session.dfy ===
/**
 * The screening session of app.py: the fields Streamlit keeps in
 * `st.session_state` and the guarded updates the page applies to them, one
 * method per block of the script.  Every reply of the language model and every
 * widget value is a parameter; each method's `modifies` names exactly the
 * session fields its block assigns, so every other field keeps its value.
 */
module Session {
  import opened Wrappers
  import opened Json
  import opened Text
  import Tools
  import Screening
  import Persistence

  /** One chat bubble of `st.session_state.messages`. */
  datatype Message =
    | User(text: string)
    | Assistant(text: string)
    | InfoSummary(data: map<string, Value>)   // the summary bubble after intake; its wording is display only

  /** The opening assistant message. */
  const Greeting: string :=
    "\U{1F44B} Hi! I'm your AI hiring assistant. Let's get started. What's your full name?"

  /** Values the script gives `step`. */
  const StepStart: int := 0
  const StepNextStack: int := 8
  const StepEvaluate: int := 10

  /** The row a dict evaluation item becomes, unless the insert fails; non-dict items are skipped. */
  function RatingRowFor(candidateId: Option<int>, stack: string, item: Item, storeFault: bool): (rows: seq<Persistence.RatingRow>)
    ensures |rows| <= 1
    ensures rows != [] <==> item.Obj? && !storeFault && Get(item.fields, "question", Str("")) != Null
  {
    match item
    case NonObj => []
    case Obj(f) =>
      var question := Get(f, "question", Str(""));
      if storeFault || question == Null then []
      else [Persistence.RatingRow(candidateId, stack, question, Screening.StarsOf(f).GetOr(0), Get(f, "feedback", Str("")))]
  }

  /** The rows one pass of the rating loop adds, given which inserts meet a fault of the store. */
  function RatingRows(candidateId: Option<int>, stack: string, items: seq<Item>, faults: seq<bool>): seq<Persistence.RatingRow>
    requires |faults| == |items|
    decreases |items|
  {
    if items == [] then []
    else
      RatingRows(candidateId, stack, items[..|items| - 1], faults[..|items| - 1])
      + RatingRowFor(candidateId, stack, items[|items| - 1], faults[|items| - 1])
  }

  /** One more item adds its own row, if any, after the rows of the items before it. */
  lemma RatingRowsSnoc(candidateId: Option<int>, stack: string, items: seq<Item>, faults: seq<bool>, k: nat)
    requires |faults| == |items| && k < |items|
    ensures RatingRows(candidateId, stack, items[..k + 1], faults[..k + 1])
         == RatingRows(candidateId, stack, items[..k], faults[..k]) + RatingRowFor(candidateId, stack, items[k], faults[k])
  {
    assert items[..k + 1][..k] == items[..k];
    assert faults[..k + 1][..k] == faults[..k];
  }

  /** A dict item whose `question` is not null: the insert that a healthy store accepts. */
  predicate Storable(item: Item) {
    item.Obj? && Get(item.fields, "question", Str("")) != Null
  }

  /** The number of storable items. */
  function StorableCount(items: seq<Item>): nat
    decreases |items|
  {
    if items == [] then 0
    else StorableCount(items[..|items| - 1]) + (if Storable(items[|items| - 1]) then 1 else 0)
  }

  /**
   * With a healthy store, one pass adds exactly one row per storable item, each
   * carrying the session's candidate id and the stack name; it never adds more.
   */
  lemma {:induction false} RatingRowsCount(candidateId: Option<int>, stack: string, items: seq<Item>, faults: seq<bool>)
    requires |faults| == |items|
    ensures |RatingRows(candidateId, stack, items, faults)| <= StorableCount(items)
    ensures (forall k :: 0 <= k < |faults| ==> !faults[k]) ==>
              |RatingRows(candidateId, stack, items, faults)| == StorableCount(items)
    ensures forall r :: r in RatingRows(candidateId, stack, items, faults) ==>
              r.candidateId == candidateId && r.techStack == stack && r.question != Null
    decreases |items|
  {
    if items != [] {
      var n := |items| - 1;
      RatingRowsCount(candidateId, stack, items[..n], faults[..n]);
    }
  }

  /** The form can show this question: it is a dict with both `question` and `hint`. */
  predicate Renderable(q: Item) {
    q.Obj? && "question" in q.fields && "hint" in q.fields
  }

  /** How many questions the form shows before the first one it cannot show. */
  function RenderedPrefix(qs: seq<Item>): (n: nat)
    ensures n <= |qs|
    ensures forall k :: 0 <= k < n ==> Renderable(qs[k])
    ensures n < |qs| ==> !Renderable(qs[n])
    decreases |qs|
  {
    if qs == [] || !Renderable(qs[0]) then 0
    else
      var rest := RenderedPrefix(qs[1..]);
      assert forall k :: 1 <= k < 1 + rest ==> qs[k] == qs[1..][k - 1];
      1 + rest
  }

  /** One empty answer per question index below `n`. */
  function EmptyAnswers(n: nat): (m: map<int, string>)
    ensures forall i :: i in m <==> 0 <= i < n
    ensures forall i :: i in m ==> m[i] == ""
  {
    if n == 0 then map[] else EmptyAnswers(n - 1)[n - 1 := ""]
  }

  /**
   * The stacks "Add This Stack" appends: none for a blank input; otherwise
   * exactly the stacks of the validated reply whose lower-case form is not that
   * of a listed stack, never more than the reply holds.
   */
  function StacksToAdd(existing: seq<string>, input: string, reply: Tools.StackReply): (added: seq<string>)
    ensures Strip(input) == "" ==> added == []
    ensures |added| <= |Tools.ValidateAndExtractStacks(reply).0|
    ensures forall s :: s in added <==>
              && Strip(input) != "" && s in Tools.ValidateAndExtractStacks(reply).0
              && Lower(s) !in Screening.LowerAll(existing)
  {
    var incoming := Tools.ValidateAndExtractStacks(reply).0;
    Screening.FreshStacksIff(existing, incoming);
    if Strip(input) == "" then [] else Screening.FreshStacks(existing, incoming)
  }

  /** One pass of the rating loop's body: the insert for a dict item, nothing for another value. */
  method StoreRating(db: Persistence.Database, candidateId: Option<int>, stack: string, item: Item, fault: bool)
    requires item.Obj? ==> Screening.StarsOf(item.fields).Some?
    modifies db`ratings
    ensures db.ratings == old(db.ratings) + RatingRowFor(candidateId, stack, item, fault)
  {
    match item {
      case Obj(f) =>
        var question := Get(f, "question", Str(""));
        var stars := Screening.StarsOf(f).value;
        var feedback := Get(f, "feedback", Str(""));
        var ok := db.InsertQuestionRating(candidateId, stack, question, stars, feedback, fault);
      case NonObj =>
    }
  }

  /**
   * The rating loop of app.py:402-413: one `insert_question_rating` per dict
   * item, with the question and feedback defaulting to `""` and the stars
   * coerced by `int`; non-dict items are skipped.
   */
  method StoreRatings(db: Persistence.Database, candidateId: Option<int>, stack: string,
                      items: seq<Item>, faults: seq<bool>)
    requires |faults| == |items| && Screening.StarsCoercible(items)
    modifies db`ratings
    ensures db.ratings == old(db.ratings) + RatingRows(candidateId, stack, items, faults)
  {
    var k := 0;
    ghost var rows := [];
    while k < |items|
      invariant 0 <= k <= |items|
      invariant rows == RatingRows(candidateId, stack, items[..k], faults[..k])
      invariant db.ratings == old(db.ratings) + rows
    {
      StoreRating(db, candidateId, stack, items[k], faults[k]);
      RatingRowsSnoc(candidateId, stack, items, faults, k);
      rows := rows + RatingRowFor(candidateId, stack, items[k], faults[k]);
      k := k + 1;
    }
    assert items[..k] == items && faults[..k] == faults;
  }

  /** The record `insert_candidate` receives from the accepted candidate data. */
  function RecordOf(data: map<string, Value>): (r: Persistence.CandidateRecord)
    requires Screening.FieldsPresent(data)
    ensures !Persistence.HasNull(r)
  {
    Screening.FieldsPresentKeys(data);
    Persistence.CandidateRecord(
      data["full_name"], data["email"], data["phone"], data["experience"], data["position"], data["location"])
  }

  class ScreeningSession {
    var messages: seq<Message>
    var infoCollected: bool
    var candidateData: map<string, Value>
    var techStackPhase: bool
    var techStacks: seq<string>
    var currentStackIdx: nat
    var questions: seq<Item>
    var answers: map<int, string>
    var evaluations: seq<seq<Item>>
    var candidateId: Option<int>
    var showFinalMessage: bool
    var step: int
    var feedbackPhase: bool

    /**
     * How the phase markers hang together: stacks are asked for only after the
     * record was accepted and are no longer asked for once there are stacks;
     * the stack index points into the list and never past the evaluations; at
     * most three questions, with one answer slot for each.  The accepted
     * record's own validity is `RecordValid`, kept apart because only intake
     * writes the two fields it reads.
     */
    ghost predicate Valid()
      reads this
    {
      StacksValid() && QuestionsValid()
    }

    /** The accepted record is valid: six fields present and a well-formed email. */
    ghost predicate RecordValid()
      reads this`infoCollected, this`candidateData
    {
      infoCollected ==> Screening.InfoValid(candidateData)
    }

    /** The phase flags and the stack index. */
    ghost predicate StacksValid()
      reads this`techStacks, this`infoCollected, this`techStackPhase, this`currentStackIdx, this`evaluations
    {
      && (techStackPhase ==> infoCollected)
      && (techStacks != [] ==> infoCollected && !techStackPhase && currentStackIdx < |techStacks|)
      && currentStackIdx <= |evaluations|
    }

    /** At most three questions, with one answer slot for each. */
    ghost predicate QuestionsValid()
      reads this`questions, this`answers
    {
      && |questions| <= Tools.MaxQuestions
      && (forall i :: i in answers <==> 0 <= i < |questions|)
    }

    /** The question-and-answer part of the page is shown (app.py:251). */
    predicate ScreeningActive()
      reads this
    {
      techStacks != [] && !techStackPhase && !showFinalMessage
    }

    /**
     * The feedback screen of the current stack got past reading its
     * evaluations and totalling their stars, so its buttons are on the page.
     */
    predicate FeedbackShown()
      reads this
    {
      && ScreeningActive() && step == StepEvaluate && feedbackPhase
      && currentStackIdx < |evaluations|
      && Screening.TotalStars(evaluations[currentStackIdx]).Some?
    }

    /**
     * The feedback screen gets past line 320's index and the star total's
     * `int()` calls (app.py:318-336) exactly when the current stack has an
     * evaluation slot and every dict item in it has stars that coerce.
     */
    lemma FeedbackShownIff()
      ensures FeedbackShown() <==>
                && ScreeningActive() && step == StepEvaluate && feedbackPhase
                && currentStackIdx < |evaluations|
                && Screening.StarsCoercible(evaluations[currentStackIdx])
    {
      if currentStackIdx < |evaluations| {
        Screening.TotalStarsDefinedIff(evaluations[currentStackIdx]);
      }
    }

    /** The first run of a new session (app.py:81-95). */
    constructor ()
      ensures Valid() && RecordValid()
      ensures messages == [Assistant(Greeting)]
      ensures !infoCollected && candidateData == map[] && !techStackPhase
      ensures techStacks == [] && currentStackIdx == 0 && questions == [] && answers == map[]
      ensures evaluations == [] && candidateId == None && !showFinalMessage
      ensures step == StepStart && !feedbackPhase
    {
      messages := [Assistant(Greeting)];
      infoCollected := false;
      candidateData := map[];
      techStackPhase := false;
      techStacks := [];
      currentStackIdx := 0;
      questions := [];
      answers := map[];
      evaluations := [];
      candidateId := None;
      showFinalMessage := false;
      step := StepStart;
      feedbackPhase := false;
    }

    /** Every rerun of the script clears the feedback flag first (app.py:95). */
    method BeginRun()
      requires Valid()
      modifies this`feedbackPhase
      ensures Valid() && !feedbackPhase
    {
      feedbackPhase := false;
    }

    /**
     * One intake turn (app.py:132-210): the user's line and the model's reply.
     * `decoded` is what `json.loads` makes of the reply's `{...}` slice (None if
     * it raises).  The record is accepted only when it is valid; a reply with
     * no slice is shown as a follow-up; a slice that is rejected adds only
     * the user's line.
     */
    method SubmitInfo(prompt: string, reply: string, decoded: Option<map<string, Value>>)
      requires Valid() && !infoCollected
      modifies this`messages, this`infoCollected, this`candidateData, this`techStackPhase
      ensures Valid() && RecordValid()
      ensures infoCollected <==> prompt != "" && Screening.InfoAccepted(reply, decoded)
      ensures infoCollected ==> candidateData == decoded.value && techStackPhase
      ensures !infoCollected ==> candidateData == old(candidateData) && !techStackPhase
      ensures prompt == "" ==> messages == old(messages)
      ensures prompt != "" && Screening.InfoSpan(reply).None? ==>
                messages == old(messages) + [User(prompt), Assistant(reply)]
      ensures prompt != "" && infoCollected ==>
                messages == old(messages) + [User(prompt), InfoSummary(decoded.value)]
      ensures prompt != "" && Screening.InfoSpan(reply).Some? && !infoCollected ==>
                messages == old(messages) + [User(prompt)]
    {
      if prompt == "" {
        return;
      }
      messages := messages + [User(prompt)];
      if Screening.InfoSpan(reply).None? {
        messages := messages + [Assistant(reply)];
      } else if decoded.Some? && Screening.InfoValid(decoded.value) {
        AcceptRecord(decoded.value);
      }
    }

    /** Intake's success branch (app.py:177-195): store the record, move on to stacks, show the summary. */
    method AcceptRecord(data: map<string, Value>)
      requires Valid() && !infoCollected && Screening.InfoValid(data)
      modifies this`messages, this`infoCollected, this`candidateData, this`techStackPhase
      ensures Valid() && RecordValid()
      ensures infoCollected && candidateData == data && techStackPhase
      ensures messages == old(messages) + [InfoSummary(data)]
    {
      candidateData := data;
      infoCollected := true;
      techStackPhase := true;
      messages := messages + [InfoSummary(data)];
    }

    /**
     * The stack line (app.py:213-247).  A non-empty stack result replaces the
     * list exactly as returned (not deduplicated), leaves stack collection and
     * restarts at stack 0 with no evaluations; the validation message is
     * appended either way.
     */
    method SubmitStacks(input: string, reply: Tools.StackReply)
      requires Valid() && techStackPhase && !showFinalMessage
      modifies this`messages, this`techStacks, this`techStackPhase, this`currentStackIdx, this`evaluations
      ensures Valid()
      ensures input == "" ==> unchanged(this)
      ensures input != "" ==>
                var (stacks, msg) := Tools.ValidateAndExtractStacks(reply);
                && messages == old(messages) + [User(input), Assistant(msg)]
                && (stacks != [] ==>
                      techStacks == stacks && !techStackPhase && currentStackIdx == 0 && evaluations == [])
                && (stacks == [] ==>
                      && techStacks == old(techStacks) && techStackPhase
                      && currentStackIdx == old(currentStackIdx) && evaluations == old(evaluations))
    {
      if input == "" {
        return;
      }
      messages := messages + [User(input)];
      var (stacks, msg) := Tools.ValidateAndExtractStacks(reply);
      if stacks != [] {
        techStacks := stacks;
        techStackPhase := false;
        currentStackIdx := 0;
        evaluations := [];
      }
      messages := messages + [Assistant(msg)];
    }

    /**
     * Question generation for the current stack (app.py:256-270), with the
     * model's reply to each attempt given in `attempts`.  At most three calls
     * are made, stopping at the first that yields questions; those become the
     * questions, with one empty answer per question.  Returns the number of
     * calls made.
     */
    method GenerateQuestions(attempts: seq<Tools.ArrayReply>) returns (calls: nat)
      requires Valid() && ScreeningActive() && questions == [] && !feedbackPhase && step != StepEvaluate
      requires |attempts| >= Screening.MaxAttempts
      modifies this`questions, this`answers
      ensures Valid()
      ensures 1 <= calls <= Screening.MaxAttempts
      ensures Screening.AllEmptyBefore(attempts, calls - 1)
      ensures questions == Tools.GenerateTechQuestions(attempts[calls - 1])
      ensures questions == [] ==> calls == Screening.MaxAttempts && answers == old(answers)
      ensures questions != [] ==> answers == EmptyAnswers(|questions|)
    {
      calls := 0;
      while calls < Screening.MaxAttempts
        invariant 0 <= calls <= Screening.MaxAttempts
        invariant Screening.AllEmptyBefore(attempts, calls)
        invariant questions == [] && answers == old(answers)
      {
        var generated := Tools.GenerateTechQuestions(attempts[calls]);
        calls := calls + 1;
        if generated != [] {
          UseQuestions(generated);
          return;
        }
      }
    }

    /** A generation call succeeded (app.py:262-265): keep its questions, each with an empty answer. */
    method UseQuestions(generated: seq<Item>)
      requires Valid() && 0 < |generated| <= Tools.MaxQuestions
      modifies this`questions, this`answers
      ensures Valid()
      ensures questions == generated && answers == EmptyAnswers(|generated|)
    {
      questions := generated;
      answers := EmptyAnswers(|generated|);
    }

    /**
     * The answer form (app.py:274-291).  Question by question, the form shows
     * `question` and `hint` and then writes that text area's value into the
     * answer slot; at the first question lacking either key the script stops
     * with an exception, so the later slots and the submit button are not
     * reached.  Once every question is shown, a submission moves the stack to
     * evaluation exactly when every answer has a non-whitespace character.
     */
    method SubmitAnswers(texts: seq<string>, submitted: bool)
      requires Valid() && ScreeningActive() && questions != [] && !feedbackPhase && step != StepEvaluate
      requires |texts| == |questions|
      modifies this`answers, this`step, this`feedbackPhase
      ensures Valid()
      ensures forall i :: 0 <= i < |questions| ==>
                answers[i] == if i < RenderedPrefix(questions) then texts[i] else old(answers)[i]
      ensures step == StepEvaluate <==>
                && RenderedPrefix(questions) == |questions| && submitted
                && forall i :: 0 <= i < |texts| ==> HasNonSpace(texts[i])
      ensures feedbackPhase <==> step == StepEvaluate
      ensures step != StepEvaluate ==> step == old(step)
    {
      var shown := FillAnswers(texts);
      if shown < |questions| {
        return;
      }
      if submitted {
        Screening.AllAnsweredIff(answers, |questions|);
        if Screening.AllAnswered(answers, |questions|) {
          step := StepEvaluate;
          feedbackPhase := true;
        }
      }
    }

    /**
     * The form's loop (app.py:276-284): writes each shown question's text area
     * into its slot and returns how many questions were shown before the
     * script stopped, or all of them.
     */
    method FillAnswers(texts: seq<string>) returns (shown: nat)
      requires Valid() && |texts| == |questions|
      modifies this`answers
      ensures Valid()
      ensures shown == RenderedPrefix(questions)
      ensures forall i :: 0 <= i < |questions| ==> answers[i] == if i < shown then texts[i] else old(answers)[i]
    {
      shown := 0;
      while shown < |questions|
        invariant 0 <= shown <= |questions|
        invariant forall k :: 0 <= k < shown ==> Renderable(questions[k])
        invariant forall k :: k in answers <==> 0 <= k < |questions|
        invariant forall k :: 0 <= k < |questions| ==> answers[k] == if k < shown then texts[k] else old(answers)[k]
      {
        if !Renderable(questions[shown]) {
          return;
        }
        answers := answers[shown := texts[shown]];
        shown := shown + 1;
      }
    }

    /**
     * Evaluation of the submitted answers (app.py:294-313).  A non-empty result
     * is written to the current stack's slot, appended when the list does not
     * reach it yet; an empty one changes nothing; an exception (building the
     * prompt failed) appends an empty list.
     */
    method Evaluate(reply: Tools.ArrayReply)
      requires Valid() && ScreeningActive() && step == StepEvaluate
      modifies this`feedbackPhase, this`evaluations
      ensures Valid() && feedbackPhase
      ensures (exists k :: 0 <= k < |questions| && !Tools.HasQuestion(questions[k])) ==>
                evaluations == old(evaluations) + [[]]
      ensures (forall k :: 0 <= k < |questions| ==> Tools.HasQuestion(questions[k])) ==>
                var result := Tools.DecodedArray(reply);
                && (result == [] ==> evaluations == old(evaluations))
                && (result != [] ==>
                      && |evaluations| == (if |old(evaluations)| <= currentStackIdx then |old(evaluations)| + 1
                                           else |old(evaluations)|)
                      && evaluations[currentStackIdx] == result
                      && forall k :: 0 <= k < |old(evaluations)| && k != currentStackIdx ==>
                           evaluations[k] == old(evaluations)[k])
    {
      feedbackPhase := true;
      var outcome := Tools.EvaluateAnswers(questions, answers, reply);
      match outcome
      case None =>
        evaluations := evaluations + [[]];
      case Some(result) =>
        if result != [] {
          if |evaluations| <= currentStackIdx {
            evaluations := evaluations + [result];
          } else {
            evaluations := evaluations[currentStackIdx := result];
          }
        }
    }

    /** "Next Stack" (app.py:338-348), offered while stacks remain after the current one. */
    method NextStack()
      requires Valid() && FeedbackShown() && currentStackIdx + 1 < |techStacks|
      modifies this`currentStackIdx, this`questions, this`answers, this`step, this`feedbackPhase
      ensures Valid()
      ensures currentStackIdx == old(currentStackIdx) + 1
      ensures questions == [] && answers == map[] && step == StepNextStack && feedbackPhase
    {
      currentStackIdx := currentStackIdx + 1;
      questions := [];
      answers := map[];
      step := StepNextStack;
      feedbackPhase := true;
    }

    /**
     * "Add This Stack" on the last stack's feedback (app.py:357-382).  The
     * stacks not already listed (ignoring case) are appended in order and
     * screening continues at the first of them; with none, nothing changes.
     */
    method AddStacks(input: string, reply: Tools.StackReply)
      requires Valid() && FeedbackShown() && currentStackIdx + 1 >= |techStacks|
      modifies this`techStacks, this`currentStackIdx, this`questions, this`answers,
               this`step, this`feedbackPhase, this`showFinalMessage
      ensures Valid()
      ensures var added := StacksToAdd(old(techStacks), input, reply);
              added != [] ==>
                && techStacks == old(techStacks) + added
                && currentStackIdx == |old(techStacks)| && techStacks[currentStackIdx] == added[0]
                && questions == [] && answers == map[] && step == StepStart
                && !feedbackPhase && !showFinalMessage
      ensures StacksToAdd(old(techStacks), input, reply) == [] ==>
                && techStacks == old(techStacks) && currentStackIdx == old(currentStackIdx)
                && questions == old(questions) && answers == old(answers) && step == old(step)
                && feedbackPhase == old(feedbackPhase) && showFinalMessage == old(showFinalMessage)
    {
      if Strip(input) != "" {
        var (incoming, msg) := Tools.ValidateAndExtractStacks(reply);
        if incoming != [] {
          var added := Screening.FreshStacks(techStacks, incoming);
          if added != [] {
            ContinueWith(added);
          }
        }
      }
    }

    /** The state "Add This Stack" sets once there are new stacks (app.py:374-382). */
    method ContinueWith(added: seq<string>)
      requires Valid() && FeedbackShown() && currentStackIdx + 1 >= |techStacks| && added != []
      modifies this`techStacks, this`currentStackIdx, this`questions, this`answers,
               this`step, this`feedbackPhase, this`showFinalMessage
      ensures Valid()
      ensures techStacks == old(techStacks) + added
      ensures currentStackIdx == |old(techStacks)| && techStacks[currentStackIdx] == added[0]
      ensures questions == [] && answers == map[] && step == StepStart
      ensures !feedbackPhase && !showFinalMessage
    {
      currentStackIdx := |techStacks|;
      techStacks := techStacks + added;
      questions := [];
      answers := map[];
      step := StepStart;
      feedbackPhase := false;
      showFinalMessage := false;
    }

    /** "Finish All Stacks" (app.py:385-387). */
    method Finish()
      requires Valid() && FeedbackShown() && currentStackIdx + 1 >= |techStacks|
      modifies this`showFinalMessage
      ensures Valid() && showFinalMessage
    {
      showFinalMessage := true;
    }

    /**
     * The writes made on every run that shows the last stack's feedback
     * (app.py:390-413): the candidate is inserted only while no id is held
     * (a duplicate email leaves it None, to be tried again), then one rating
     * row is attempted per dict item of the current stack's evaluations.
     * `faults` says which rating inserts meet a fault of the store.  Nothing
     * stops a later run from adding the same rows again.
     */
    method PersistCurrentStack(db: Persistence.Database, faults: seq<bool>)
      requires Valid() && FeedbackShown() && currentStackIdx + 1 >= |techStacks|
      requires RecordValid() && db.Valid()
      requires |faults| == |evaluations[currentStackIdx]|
      modifies this`candidateId, db`candidates, db`lastCandidateId, db`ratings
      ensures Valid() && db.Valid()
      ensures old(candidateId).Some? ==> candidateId == old(candidateId) && db.candidates == old(db.candidates)
      ensures old(candidateId).None? ==>
                (candidateId.Some? <==> !old(db.EmailTaken(RecordOf(candidateData).email)))
      ensures old(candidateId).None? && candidateId.Some? ==>
                db.candidates == old(db.candidates) + [Persistence.CandidateRow(candidateId.value, RecordOf(candidateData))]
      ensures old(candidateId).None? && candidateId.None? ==> db.candidates == old(db.candidates)
      ensures old(candidateId).None? && candidateId.Some? ==> db.lastCandidateId == candidateId.value
      ensures old(candidateId).Some? || candidateId.None? ==> db.lastCandidateId == old(db.lastCandidateId)
      ensures Screening.StarsCoercible(evaluations[currentStackIdx])
      ensures db.ratings == old(db.ratings) + RatingRows(candidateId, techStacks[currentStackIdx],
                                                          evaluations[currentStackIdx], faults)
    {
      if candidateId.None? {
        candidateId := db.InsertCandidate(RecordOf(candidateData));
      }
      var items := evaluations[currentStackIdx];
      var stack := techStacks[currentStackIdx];
      Screening.TotalStarsDefinedIff(items);
      StoreRatings(db, candidateId, stack, items, faults);
    }
  }
}

=== FILE: text.dfy ===
/**
 * Character classes and string operations of Python's `str` and `re` that the
 * screening code relies on: Unicode whitespace (`\s`, `str.strip`), ASCII
 * letters and digits, lower-casing, searching for a character, and `str(int)`.
 */
module Text {
  import opened Wrappers

  /** Python's whitespace: what `\s` matches in a `str` pattern and what `str.strip()` removes. */
  predicate IsSpace(c: char) {
    || c == ' '
    || ('\t' <= c <= '\r')                  // \t \n \v \f \r
    || ('\U{1C}' <= c <= '\U{1F}')          // file, group, record and unit separators
    || c == '\U{85}' || c == '\U{A0}' || c == '\U{1680}'
    || ('\U{2000}' <= c <= '\U{200A}')
    || c == '\U{2028}' || c == '\U{2029}' || c == '\U{202F}' || c == '\U{205F}' || c == '\U{3000}'
  }

  /** The class `[a-zA-Z0-9]`. */
  predicate IsAsciiAlnum(c: char) {
    ('a' <= c <= 'z') || ('A' <= c <= 'Z') || ('0' <= c <= '9')
  }

  /** `s` holds a character that is not whitespace. */
  ghost predicate HasNonSpace(s: string) {
    exists k :: 0 <= k < |s| && !IsSpace(s[k])
  }

  /** `s` with its leading whitespace removed (`str.lstrip()`). */
  function TrimStart(s: string): (r: string)
    ensures |r| <= |s| && r == s[|s| - |r|..]
    ensures r != [] ==> !IsSpace(r[0])
  {
    if s != [] && IsSpace(s[0]) then TrimStart(s[1..]) else s
  }

  /** Everything `TrimStart` removes is whitespace. */
  lemma {:induction false} TrimStartRemovesSpace(s: string)
    ensures forall k :: 0 <= k < |s| - |TrimStart(s)| ==> IsSpace(s[k])
  {
    if s != [] && IsSpace(s[0]) {
      TrimStartRemovesSpace(s[1..]);
      forall k | 1 <= k < |s| - |TrimStart(s)|
        ensures IsSpace(s[k])
      {
        assert s[k] == s[1..][k - 1];
      }
    }
  }

  /** `s` with its trailing whitespace removed (`str.rstrip()`). */
  function TrimEnd(s: string): (r: string)
    ensures |r| <= |s| && r == s[..|r|]
    ensures r != [] ==> !IsSpace(r[|r| - 1])
  {
    if s != [] && IsSpace(s[|s| - 1]) then TrimEnd(s[..|s| - 1]) else s
  }

  /** Everything `TrimEnd` removes is whitespace. */
  lemma {:induction false} TrimEndRemovesSpace(s: string)
    ensures forall k :: |TrimEnd(s)| <= k < |s| ==> IsSpace(s[k])
  {
    if s != [] && IsSpace(s[|s| - 1]) {
      TrimEndRemovesSpace(s[..|s| - 1]);
    }
  }

  /** `str.strip()`. */
  function Strip(s: string): (r: string)
    ensures r != [] ==> !IsSpace(r[0]) && !IsSpace(r[|r| - 1])
  {
    TrimEnd(TrimStart(s))
  }

  /** A stripped string is non-empty (truthy) exactly when the string holds a non-whitespace character. */
  lemma StripNonEmptyIff(s: string)
    ensures Strip(s) != [] <==> HasNonSpace(s)
  {
    var t := TrimStart(s);
    var r := TrimEnd(t);
    TrimStartRemovesSpace(s);
    TrimEndRemovesSpace(t);
    if r != [] {
      assert !IsSpace(s[|s| - |t|]) by { assert t[0] == r[0]; }
    }
  }

  /** ASCII lower-casing of one character. */
  function LowerChar(c: char): (d: char)
    ensures 'A' <= c <= 'Z' ==> 'a' <= d <= 'z' && d as int == c as int + 32
    ensures !('A' <= c <= 'Z') ==> d == c
  {
    if 'A' <= c <= 'Z' then (c as int + 32) as char else c
  }

  /**
   * `str.lower()` on the ASCII letters: same length, no capital left, each
   * capital replaced by its small letter and every other character kept.
   */
  function Lower(s: string): (r: string)
    ensures |r| == |s|
    ensures forall k :: 0 <= k < |r| ==> !('A' <= r[k] <= 'Z')
    ensures forall k :: 0 <= k < |s| && 'A' <= s[k] <= 'Z' ==> r[k] as int == s[k] as int + 32
    ensures forall k :: 0 <= k < |s| && !('A' <= s[k] <= 'Z') ==> r[k] == s[k]
  {
    seq(|s|, k requires 0 <= k < |s| => LowerChar(s[k]))
  }

  /** Lower-casing twice changes nothing more: case-insensitive comparison is stable. */
  lemma LowerIdempotent(s: string)
    ensures Lower(Lower(s)) == Lower(s)
  {
    forall k | 0 <= k < |s|
      ensures Lower(Lower(s))[k] == Lower(s)[k]
    {
      var c := s[k];
      if 'A' <= c <= 'Z' {
        assert 'a' <= LowerChar(c) <= 'z';
      }
    }
  }

  /** The first position at or after `from` that holds `c`. */
  function IndexOfFrom(s: string, c: char, from: nat): (r: Option<nat>)
    requires from <= |s|
    ensures r.Some? ==> from <= r.value < |s| && s[r.value] == c
    decreases |s| - from
  {
    if from == |s| then None
    else if s[from] == c then Some(from)
    else IndexOfFrom(s, c, from + 1)
  }

  /** `IndexOfFrom` finds the first occurrence at or after `from`, and None means there is none. */
  lemma {:induction false} IndexOfFromFirst(s: string, c: char, from: nat)
    requires from <= |s|
    ensures IndexOfFrom(s, c, from).Some? ==> forall k :: from <= k < IndexOfFrom(s, c, from).value ==> s[k] != c
    ensures IndexOfFrom(s, c, from).None? ==> forall k :: from <= k < |s| ==> s[k] != c
    decreases |s| - from
  {
    if from < |s| && s[from] != c {
      IndexOfFromFirst(s, c, from + 1);
    }
  }

  /** The last position of `s` that holds `c`. */
  function LastIndexOf(s: string, c: char): (r: Option<nat>)
    ensures r.Some? ==> r.value < |s| && s[r.value] == c
  {
    if s == [] then None
    else if s[|s| - 1] == c then Some(|s| - 1)
    else LastIndexOf(s[..|s| - 1], c)
  }

  /** `LastIndexOf` finds the last occurrence, and None means there is none. */
  lemma {:induction false} LastIndexOfLast(s: string, c: char)
    ensures LastIndexOf(s, c).Some? ==> forall k :: LastIndexOf(s, c).value < k < |s| ==> s[k] != c
    ensures LastIndexOf(s, c).None? ==> forall k :: 0 <= k < |s| ==> s[k] != c
  {
    if s != [] && s[|s| - 1] != c {
      LastIndexOfLast(s[..|s| - 1], c);
    }
  }

  /** The decimal digit for `d`. */
  function DigitChar(d: nat): (c: char)
    requires d < 10
    ensures '0' <= c <= '9'
  {
    ('0' as int + d) as char
  }

  /** `str(n)` for a non-negative integer. */
  function NatToString(n: nat): (r: string)
    ensures |r| >= 1
    ensures forall k :: 0 <= k < |r| ==> '0' <= r[k] <= '9'
    ensures n > 0 ==> r[0] != '0'
  {
    if n < 10 then [DigitChar(n)] else NatToString(n / 10) + [DigitChar(n % 10)]
  }

  /** `str(n)` for an integer. */
  function IntToString(n: int): (r: string)
    ensures |r| >= 1
    ensures n < 0 <==> r[0] == '-'
  {
    if n < 0 then "-" + NatToString(-n) else NatToString(n)
  }

  /** The number a string of decimal digits spells, most significant digit first. */
  function DigitsValue(s: string): int
    decreases |s|
  {
    if s == [] then 0 else DigitsValue(s[..|s| - 1]) * 10 + (s[|s| - 1] as int - '0' as int)
  }

  /** The digits of `NatToString(n)` spell `n`. */
  lemma {:induction false} NatToStringValue(n: nat)
    ensures DigitsValue(NatToString(n)) == n
  {
    var r := NatToString(n);
    if n < 10 {
      assert r[..0] == [];
    } else {
      var front := NatToString(n / 10);
      assert r[..|r| - 1] == front;
      NatToStringValue(n / 10);
    }
  }

  /**
   * `IntToString(n)` is the decimal text of `n`: the digits of a non-negative
   * number spell it, and a negative one is a minus sign followed by the digits
   * of its magnitude.
   */
  lemma IntToStringValue(n: int)
    ensures n >= 0 ==> DigitsValue(IntToString(n)) == n
    ensures n < 0 ==> IntToString(n)[0] == '-' && DigitsValue(IntToString(n)[1..]) == -n
    ensures n < 0 ==> forall k :: 1 <= k < |IntToString(n)| ==> '0' <= IntToString(n)[k] <= '9'
    ensures n >= 0 ==> forall k :: 0 <= k < |IntToString(n)| ==> '0' <= IntToString(n)[k] <= '9'
  {
    if n < 0 {
      var digits := NatToString(-n);
      var r := IntToString(n);
      assert r[1..] == digits;
      NatToStringValue(-n);
      forall k | 1 <= k < |r|
        ensures '0' <= r[k] <= '9'
      {
        assert r[k] == digits[k - 1];
      }
    } else {
      NatToStringValue(n);
    }
  }
}

=== FILE: tools.dfy ===
/**
 * The language-model helpers of tools.py, without the model: each reply is an
 * input, and what is modelled is how the code turns the reply into a result
 * (the `[...]` slice, the truncation to three questions, the key defaults, the
 * fallback on failure) and how it builds the question-and-answer prompt text.
 */
module Tools {
  import opened Wrappers
  import opened Json
  import opened Text

  /** At most this many generated questions are kept (`questions_json[:3]`). */
  const MaxQuestions: nat := 3

  /** Shown when the stack reply could not be parsed. */
  const StackFallbackMessage: string :=
    "\U{26A0}\U{FE0F} Couldn't parse LLM output properly. Please try entering your tech stacks again."

  /** What one call of the model inside the helper's `try` block came to. */
  datatype ArrayReply =
    | CallFailed                                          // the call or its post-processing raised
    | Replied(text: string, decoded: Option<seq<Item>>)   // reply text; `json.loads` of its `[...]` slice, None if that raised

  /** What `chain.run` followed by `parser.parse` came to in `validate_and_extract_stacks`. */
  datatype StackReply =
    | StackCallFailed                                              // the call or the parser raised
    | StackParsed(stacks: Option<seq<string>>, message: Option<string>)  // the parsed dict's two keys, None if absent

  /** `s[i]` opens and `s[j]` closes a candidate match of `\[.*\]` (DOTALL: anything in between). */
  ghost predicate ArrayMatch(s: string, i: int, j: int) {
    0 <= i < j < |s| && s[i] == '[' && s[j] == ']'
  }

  /**
   * Where `re.search(r'(\[.*\])', s, re.DOTALL)` matches: the leftmost opening
   * bracket that has a closing one after it, and from there the longest match,
   * i.e. up to the last closing bracket of the text.
   */
  function ArraySpan(s: string): (r: Option<(nat, nat)>)
    ensures r.Some? ==> ArrayMatch(s, r.value.0, r.value.1)
  {
    match (IndexOfFrom(s, '[', 0), LastIndexOf(s, ']'))
    case (Some(i), Some(j)) =>
      if i < j then assert ArrayMatch(s, i, j); Some((i, j)) else None
    case _ => None
  }

  /** The span is None exactly when nothing matches; otherwise it is the leftmost, then longest, match. */
  lemma ArraySpanLeftmostLongest(s: string)
    ensures ArraySpan(s).None? <==> forall i, j :: !ArrayMatch(s, i, j)
    ensures ArraySpan(s).Some? ==> forall i, j :: ArrayMatch(s, i, j) ==>
              ArraySpan(s).value.0 < i || (ArraySpan(s).value.0 == i && j <= ArraySpan(s).value.1)
  {
    IndexOfFromFirst(s, '[', 0);
    LastIndexOfLast(s, ']');
  }

  /**
   * `t` is the piece of `s` that starts at position `i`, with no `[` before
   * it and no `]` after it.
   */
  ghost predicate FirstOpenToLastClose(s: string, i: int, t: string) {
    && 0 <= i && i + |t| <= |s| && s[i..i + |t|] == t
    && (forall k :: 0 <= k < i ==> s[k] != '[')
    && (forall k :: i + |t| <= k < |s| ==> s[k] != ']')
  }

  /**
   * The text of that match, which the code hands to `json.loads`: absent
   * exactly when no `[` has a `]` after it, otherwise bracketed at both ends
   * and running from the first `[` of the reply to its last `]`.
   */
  function ArraySlice(s: string): (r: Option<string>)
    ensures r.None? <==> forall i, j :: !ArrayMatch(s, i, j)
    ensures r.Some? ==> 2 <= |r.value| && r.value[0] == '[' && r.value[|r.value| - 1] == ']'
    ensures r.Some? ==> exists i :: FirstOpenToLastClose(s, i, r.value)
  {
    ArraySpanLeftmostLongest(s);
    match ArraySpan(s)
    case None => None
    case Some((i, j)) =>
      IndexOfFromFirst(s, '[', 0);
      LastIndexOfLast(s, ']');
      assert FirstOpenToLastClose(s, i, s[i..j + 1]);
      Some(s[i..j + 1])
  }

  /**
   * The array a reply carries: a non-empty result is the decoded `[...]` slice
   * of a reply that has one, and every failure (no reply, no slice, a slice
   * that does not decode) gives the empty list instead of raising.
   */
  function DecodedArray(reply: ArrayReply): (items: seq<Item>)
    ensures items != [] ==> reply.Replied? && ArraySpan(reply.text).Some? && reply.decoded == Some(items)
    ensures reply.Replied? && ArraySpan(reply.text).Some? && reply.decoded.Some? ==> items == reply.decoded.value
  {
    match reply
    case CallFailed => []
    case Replied(text, decoded) =>
      if ArraySpan(text).None? then [] else decoded.GetOr([])
  }

  /**
   * `generate_tech_questions`: the decoded array cut to its first three items,
   * or the empty list on any failure; nothing is raised.
   */
  function GenerateTechQuestions(reply: ArrayReply): (questions: seq<Item>)
    ensures |questions| <= MaxQuestions
    ensures questions <= DecodedArray(reply)
    ensures |questions| == if |DecodedArray(reply)| < MaxQuestions then |DecodedArray(reply)| else MaxQuestions
  {
    var items := DecodedArray(reply);
    if |items| <= MaxQuestions then items else items[..MaxQuestions]
  }

  /** `answers.get(idx, '')`. */
  function AnswerAt(answers: map<int, string>, idx: int): (a: string)
    ensures idx in answers ==> a == answers[idx]
    ensures idx !in answers ==> a == ""
  {
    if idx in answers then answers[idx] else ""
  }

  /** The text `f"{v}"` gives a decoded value. */
  function Render(v: Value): string {
    match v
    case Null => "None"
    case Str(s) => s
    case Num(n) => IntToString(n)
    case Other(text) => text
  }

  /** `q['question']` can be read: `q` is a dict holding that key. */
  predicate HasQuestion(q: Item) {
    q.Obj? && "question" in q.fields
  }

  /** The block the loop adds for the question at `idx`; None where `q['question']` raises. */
  function QaBlock(idx: nat, q: Item, answers: map<int, string>): (b: Option<string>)
    ensures b.Some? <==> HasQuestion(q)
  {
    if HasQuestion(q) then
      Some("\nQuestion " + IntToString(idx + 1) + ": " + Render(q.fields["question"])
           + "\nAnswer: " + AnswerAt(answers, idx) + "\n")
    else None
  }

  /** Both parts, concatenated, when both exist. */
  function Join(a: Option<string>, b: Option<string>): (r: Option<string>)
    ensures r.Some? <==> a.Some? && b.Some?
  {
    if a.Some? && b.Some? then Some(a.value + b.value) else None
  }

  /** The blocks of `qs`, the first of which is question number `start + 1`. */
  function QaFrom(qs: seq<Item>, answers: map<int, string>, start: nat): Option<string>
    decreases |qs|
  {
    if qs == [] then Some("")
    else Join(QaBlock(start, qs[0], answers), QaFrom(qs[1..], answers, start + 1))
  }

  /** The `qa_text` of `evaluate_answers`: one block per question, numbered from 1; None where it raises. */
  function QaText(qs: seq<Item>, answers: map<int, string>): Option<string> {
    QaFrom(qs, answers, 0)
  }

  /** Joining is associative. */
  lemma JoinAssoc(a: Option<string>, b: Option<string>, c: Option<string>)
    ensures Join(a, Join(b, c)) == Join(Join(a, b), c)
  {
    if a.Some? && b.Some? && c.Some? {
      assert a.value + (b.value + c.value) == (a.value + b.value) + c.value;
    }
  }

  /** The empty text is a unit of joining. */
  lemma JoinEmpty(a: Option<string>)
    ensures Join(a, Some("")) == a && Join(Some(""), a) == a
  {
    if a.Some? {
      assert a.value + "" == a.value && "" + a.value == a.value;
    }
  }

  /** Adding a question at the end adds exactly its block at the end, numbered after the others. */
  lemma {:induction false} QaFromSnoc(qs: seq<Item>, q: Item, answers: map<int, string>, start: nat)
    ensures QaFrom(qs + [q], answers, start)
         == Join(QaFrom(qs, answers, start), QaBlock(start + |qs|, q, answers))
    decreases |qs|
  {
    var last := QaBlock(start + |qs|, q, answers);
    if qs == [] {
      assert [] + [q] == [q] && [q][1..] == [];
      JoinEmpty(last);
    } else {
      var first := QaBlock(start, qs[0], answers);
      assert (qs + [q])[0] == qs[0];
      assert (qs + [q])[1..] == qs[1..] + [q];
      calc {
        QaFrom(qs + [q], answers, start);
        Join(first, QaFrom(qs[1..] + [q], answers, start + 1));
        { QaFromSnoc(qs[1..], q, answers, start + 1); }
        Join(first, Join(QaFrom(qs[1..], answers, start + 1), last));
        { JoinAssoc(first, QaFrom(qs[1..], answers, start + 1), last); }
        Join(QaFrom(qs, answers, start), last);
      }
    }
  }

  /** The text can be built exactly when every question is a dict with a `question` key. */
  lemma {:induction false} QaFromDefinedIff(qs: seq<Item>, answers: map<int, string>, start: nat)
    ensures QaFrom(qs, answers, start).Some? <==> forall k :: 0 <= k < |qs| ==> HasQuestion(qs[k])
    decreases |qs|
  {
    if qs != [] {
      QaFromDefinedIff(qs[1..], answers, start + 1);
      assert forall k :: 1 <= k < |qs| ==> qs[k] == qs[1..][k - 1];
    }
  }

  /** The text for the first `m` questions is a prefix of the text for all of them. */
  lemma {:induction false} QaTextPrefix(qs: seq<Item>, answers: map<int, string>, m: nat)
    requires m <= |qs| && QaText(qs, answers).Some?
    ensures QaText(qs[..m], answers).Some?
    ensures QaText(qs[..m], answers).value <= QaText(qs, answers).value
    decreases |qs| - m
  {
    if m == |qs| {
      assert qs[..m] == qs;
    } else {
      QaTextPrefix(qs, answers, m + 1);
      QaFromSnoc(qs[..m], qs[m], answers, 0);
      assert qs[..m] + [qs[m]] == qs[..m + 1];
    }
  }

  /**
   * One block per question, in question order: the block of question `k`
   * (numbered `k + 1`, with its answer or `""`) follows the blocks of the
   * questions before it.
   */
  lemma QaTextBlockAt(qs: seq<Item>, answers: map<int, string>, k: nat)
    requires k < |qs| && QaText(qs, answers).Some?
    ensures QaBlock(k, qs[k], answers).Some?
    ensures QaText(qs[..k], answers).Some?
    ensures QaText(qs[..k], answers).value + QaBlock(k, qs[k], answers).value <= QaText(qs, answers).value
  {
    QaTextPrefix(qs, answers, k + 1);
    QaFromSnoc(qs[..k], qs[k], answers, 0);
    assert qs[..k] + [qs[k]] == qs[..k + 1];
  }

  /** The text for one more question is the text so far joined with that question's block. */
  lemma QaTextStep(qs: seq<Item>, answers: map<int, string>, idx: nat)
    requires idx < |qs|
    ensures QaText(qs[..idx + 1], answers) == Join(QaText(qs[..idx], answers), QaBlock(idx, qs[idx], answers))
  {
    QaFromSnoc(qs[..idx], qs[idx], answers, 0);
    assert qs[..idx] + [qs[idx]] == qs[..idx + 1];
  }

  /** `qa_text` as the loop builds it; None where `q['question']` raises for some question. */
  method BuildQaText(qs: seq<Item>, answers: map<int, string>) returns (text: Option<string>)
    ensures text == QaText(qs, answers)
    ensures text.Some? <==> forall k :: 0 <= k < |qs| ==> HasQuestion(qs[k])
  {
    QaFromDefinedIff(qs, answers, 0);
    var qa := "";
    var idx := 0;
    while idx < |qs|
      invariant 0 <= idx <= |qs|
      invariant QaText(qs[..idx], answers) == Some(qa)
    {
      QaTextStep(qs, answers, idx);
      var block := QaBlock(idx, qs[idx], answers);
      if block.None? {
        return None;
      }
      qa := qa + block.value;
      idx := idx + 1;
    }
    assert qs[..idx] == qs;
    text := Some(qa);
  }

  /**
   * `evaluate_answers`: None where building the prompt raises (before its
   * `try`); otherwise the decoded array, untruncated, or the empty list on any
   * failure inside the `try`.
   */
  method EvaluateAnswers(questions: seq<Item>, answers: map<int, string>, reply: ArrayReply) returns (r: Option<seq<Item>>)
    ensures r.None? <==> exists k :: 0 <= k < |questions| && !HasQuestion(questions[k])
    ensures r.Some? ==> r.value == DecodedArray(reply)
  {
    var qa := BuildQaText(questions, answers);
    if qa.None? {
      return None;
    }
    r := Some(DecodedArray(reply));
  }

  /**
   * `validate_and_extract_stacks`: the stacks and message of the parsed reply,
   * `[]` and `""` for absent keys, and no stacks with the fixed fallback
   * message on any failure.  Stacks are never made up: any returned are the
   * parser's own list.  The message is empty only when the parsed reply
   * carried none.
   */
  function ValidateAndExtractStacks(reply: StackReply): (r: (seq<string>, string))
    ensures r.0 != [] ==> reply.StackParsed? && reply.stacks == Some(r.0)
    ensures r.1 == "" ==> reply.StackParsed? && (reply.message.None? || reply.message == Some(""))
    ensures r.1 != "" ==> r.1 == StackFallbackMessage || (reply.StackParsed? && reply.message == Some(r.1))
    ensures reply.StackCallFailed? ==> r.0 == [] && r.1 == StackFallbackMessage
    ensures reply.StackParsed? && reply.stacks.Some? ==> r.0 == reply.stacks.value
    ensures reply.StackParsed? && reply.message.Some? ==> r.1 == reply.message.value
    ensures reply.StackParsed? && reply.stacks.None? ==> r.0 == []
    ensures reply.StackParsed? && reply.message.None? ==> r.1 == ""
  {
    match reply
    case StackCallFailed => ([], StackFallbackMessage)
    case StackParsed(stacks, message) => (stacks.GetOr([]), message.GetOr(""))
  }
}

=== FILE: wrappers.dfy ===
/** The optional value used wherever the Python code returns `None` or may fail. */
module Wrappers {

  datatype Option<+T> = None | Some(value: T) {

    /** The carried value, or `default` when there is none (Python's `x if x is not None else default`). */
    function GetOr(default: T): T {
      match this
      case Some(v) => v
      case None => default
    }
  }
}
